=== FILE: README.md ===
# Vehicle state bridge and RPC client decisions, in Dafny

This project models two pieces of the simulator bridge's sequential
decision logic. It does not model the engine or the RPC transport.

* **The vehicle's pose/collision state machine**
  (`Unreal/Plugins/AirSim/Source/PawnSimApi.cpp`). The vehicle state is an
  immutable record (`VehicleState.State`). It holds the current, last-traced
  and debug positions, the collision record, the tracing, collision and
  pass-through switches, and `wasLastMoveTeleport`. Each call is a pure
  transition that returns the new state and the engine effects it asks for
  (`MoveActor` with or without teleport, trace lines, trace flush):
  * `setPose`, with its teleport-or-physics decision and trace bookkeeping
  * `setDebugPose`
  * the collision callback `onCollision`
  * `toggleTrace` and `allowPassthroughToggleInput`
  * `reset`
  * `getRCData`'s field mapping and `getImage`'s first-response rule

  `PawnSimApi.Pawn` adds the spawn snapshot that `reset` restores and the
  RC data. `PawnSimApi.Run` handles a sequence of calls and engine callbacks
  one at a time.
* **Client-side protocol decisions**
  (`AirLib/src/api/RpcLibClientBase.cpp`):
  * the transport-state to `ConnectionState` mapping
  * the fixed client version constants and the three-way version verdict
  * `confirmConnection`, modelled as a loop over the sequence of
    connection states the client observes
  * `simGetImage`'s one-byte payload normalisation
  * the base `waitOnLastTask`

`ImagePath` joins the vehicle's `getImage` to the client's `simGetImage`
across the server's one-byte placeholder for an empty payload.

Modelling choices:

* The engine is an environment. The NED conversions `fromLocalNed`,
  `toLocalNed`, `fromNed` and the length conversion `toNed` are fields of
  `Geometry.NedTransform` holding arbitrary functions. Their definitions are
  not part of this model, so no round-trip law between them is assumed.
* Positions are triples of `real`, so float rounding is not modelled.
* The hit the engine reports during a pose update is an input
  (`contact: Option<Hit>`). It is delivered only to a sweeping (physics)
  move, because a teleport move does not sweep.
* The hit's clock reading (`timeStamp`) is part of the hit event. It
  replaces the process-wide clock.
* A collision callback that arrives between calls is an event of its own
  (`CollisionCallback`). Callbacks are handled one at a time between
  calls; concurrency is not modelled.
* `collision_count` is an unsigned 32-bit counter that wraps
  (`Common.IncrementCount`).
* The default values of `CollisionInfo` are: no collision, zero vectors,
  empty name, object id -1, count 0. The defaults of `RCData` are: invalid,
  zero axes, no switches, empty vendor id. Both come from AirLib headers
  that are not part of this model.
* In the constructor, `state_` and `initial_state_` both start
  default-constructed. `PawnSimApi.Spawn` therefore takes that default
  state as a parameter. The snapshot's teleport flag is
  `canTeleportWhileMove()` evaluated on the live state (still the default),
  not on the snapshot under construction (source line 44). The model makes
  no claim that this equals `!enable_collisions`.
* `VectorMath::hasNan` cannot hold of a real vector. So whether a debug
  position holds a NaN is an input flag of `SetDebugPose`.
* `confirmConnection` waits forever if the connection never comes up. The
  model polls a finite sequence of observed states. When that sequence
  runs out without a connection, the outcome is `StillWaiting`.

Two behaviours of the code worth stating plainly:

* The client empties every one-byte image payload, genuine ones included
  (`NormalizeImagePayload`, `OneBytePayloadsIndistinguishable`).
* The NED conversions are left uninterpreted; no round-trip law between
  `toLocalNed` and `fromLocalNed` is assumed.

## Model

| member | source | states |
|---|---|---|
| VehicleState.CanTeleportWhileMove | Unreal/Plugins/AirSim/Source/PawnSimApi.cpp:426-434 | teleporting is allowed whenever collisions are off; with collisions on, only when a collision is on record, the previous move was not a teleport and pass-through is on |
| VehicleState.SetPose | Unreal/Plugins/AirSim/Source/PawnSimApi.cpp:379-408 | the teleport flag becomes `ignoreCollision` or the pre-call teleport decision (so always true when collisions are ignored); afterwards the collision flag is up exactly when this call's move swept and the engine reported a hit, and no earlier collision survives; the vehicle moves to `fromLocalNed` of the target; the trace point jumps to the target when tracing is off or the target is more than 0.5 away (squared distance > 0.25), and otherwise stays; so it always ends within 0.5 of the vehicle; a trace line is drawn exactly when the point advances while tracing; the three switches and the debug fields do not change |
| VehicleState.OnCollision | Unreal/Plugins/AirSim/Source/PawnSimApi.cpp:115-140 | raises the collision flag, counts the hit once, stamps the hit's time and names the other object "(null)" when there is none; the new record is exactly the one the hit yields (object id, negated normal and NED fields as stated for `Collision.RecordHit`); nothing but the collision record changes (switches and teleport flag untouched) |
| Collision.RecordHit | Unreal/Plugins/AirSim/Source/PawnSimApi.cpp:122-133 | the collision record after a hit: flag up, count incremented by one (wrapping at 2^32), object name "(null)" without another actor, object id -1 without a primitive root component and the stencil value otherwise, normal with z negated, impact point, position and penetration depth converted to NED |
| Common.IncrementCount | Unreal/Plugins/AirSim/Source/PawnSimApi.cpp:133 | the unsigned counter grows by exactly one below its maximum and wraps to zero at it; the result is always congruent to count + 1 modulo 2^32 |
| VehicleState.SetDebugPose | Unreal/Plugins/AirSim/Source/PawnSimApi.cpp:410-424 | stores the debug position in the engine frame; with tracing off the debug trace point follows the offset overlay point; with tracing on and a NaN-free position it advances to the overlay point when that point is more than 0.5 away (squared distance > 0.25, drawing a debug line exactly then) and stays put otherwise, so it ends within 0.5 of it; with a NaN it stays; nothing else changes |
| VehicleState.ToggleTrace | Unreal/Plugins/AirSim/Source/PawnSimApi.cpp:308-318 | negates the tracing flag; switching off flushes the drawn traces and changes nothing else; switching on re-anchors the debug overlay so that the current debug position overlays the vehicle's current position, and restarts the debug trace from the vehicle's trace point |
| VehicleState.DebugTraceStartsAtVehicleTrace | Unreal/Plugins/AirSim/Source/PawnSimApi.cpp:314-316 | after tracing is switched on, the debug position on record overlays the vehicle's current position, so the next debug pose at that position starts the debug trace at the vehicle's trace point, or advances it to the vehicle when that is more than 0.5 away |
| VehicleState.ToggleTraceTwice | Unreal/Plugins/AirSim/Source/PawnSimApi.cpp:308-318 | toggling tracing twice restores the flag and leaves everything but the debug offset and debug trace point unchanged |
| VehicleState.AllowPassthroughToggleInput | Unreal/Plugins/AirSim/Source/PawnSimApi.cpp:320-324 | negates the pass-through flag and changes nothing else |
| VehicleState.PassthroughToggleInvolution | Unreal/Plugins/AirSim/Source/PawnSimApi.cpp:322 | toggling pass-through twice restores the state exactly |
| FlipFlop.ObstructedRun | Unreal/Plugins/AirSim/Source/PawnSimApi.cpp:388-399 | a run of pose updates against an obstacle yields one state per move and never changes the collision, pass-through or tracing switches |
| FlipFlop.FlipFlopAlternates | Unreal/Plugins/AirSim/Source/PawnSimApi.cpp:388-433 | with collisions and pass-through on, `ignoreCollision` false and a hit on every sweeping move: the first move follows the pre-run teleport decision, every move records a collision exactly when it did not teleport, and from the second move on the teleport flag strictly alternates |
| FlipFlop.FlipFlopAfterCollision | Unreal/Plugins/AirSim/Source/PawnSimApi.cpp:426-434 | once a collision is on record after a physics move, the moves teleport, sweep, teleport, … in strict alternation |
| FlipFlop.FlipFlopFrom | Unreal/Plugins/AirSim/Source/PawnSimApi.cpp:388-433 | in that setting the k-th move teleports exactly when k's parity matches the first decision |
| FlipFlop.NoPassthroughNeverTeleports | Unreal/Plugins/AirSim/Source/PawnSimApi.cpp:433 | with collisions on and pass-through off, no move of the run teleports and every move records the obstacle's hit |
| FlipFlop.CollisionsDisabledAlwaysTeleports | Unreal/Plugins/AirSim/Source/PawnSimApi.cpp:388-399 | with collisions off every pose update teleports and no hit is recorded, whatever the engine would report |
| PawnSimApi.Spawn | Unreal/Plugins/AirSim/Source/PawnSimApi.cpp:28-44 | the snapshot is the default state with exactly these fields replaced: the spawn location and rotation, both trace points at the spawn location, the three switches from the settings, a default collision record, and the teleport decision of the not-yet-initialised live state; its current position, current debug position and debug offset stay the defaults; the live state stays default and the RC data default |
| PawnSimApi.SpawnTeleportFlagIgnoresSettings | Unreal/Plugins/AirSim/Source/PawnSimApi.cpp:43-44 | the snapshot's teleport flag does not depend on the settings read at spawn |
| PawnSimApi.Reset | Unreal/Plugins/AirSim/Source/PawnSimApi.cpp:260-267 | the live state becomes the spawn snapshot and the RC data the default, and the actor is teleported back to its start pose; the snapshot itself is kept |
| PawnSimApi.ResetRestoresSnapshot | Unreal/Plugins/AirSim/Source/PawnSimApi.cpp:264-265 | after any history of calls and callbacks followed by a reset, the state equals the snapshot and the RC data the default |
| PawnSimApi.ResetForgetsHistory | Unreal/Plugins/AirSim/Source/PawnSimApi.cpp:260-267 | two different histories, each followed by a reset and then the same events, leave identical vehicles |
| PawnSimApi.Run | Unreal/Plugins/AirSim/Source/PawnSimApi.cpp:264 | no sequence of calls or callbacks ever changes the spawn snapshot that reset restores |
| PawnSimApi.CallbacksAreCounted | Unreal/Plugins/AirSim/Source/PawnSimApi.cpp:124-133 | between pose updates and resets, each collision callback adds exactly one to the counter (modulo 2^32), and the collision flag once up stays up |
| PawnSimApi.CollisionNotLost | Unreal/Plugins/AirSim/Source/PawnSimApi.cpp:124 | the flag raised by a collision callback survives every later event until the next pose update or reset |
| PawnSimApi.ReadRCData | Unreal/Plugins/AirSim/Source/PawnSimApi.cpp:188-223 | reading the joystick changes only the vehicle's RC data: validity copied, an invalid reading leaves the controls as they were, a valid one sets pitch to the negated right stick and a vendor id that is a prefix of the product/vendor string; the new RC data is exactly `RemoteControl.GetRCData` of the old data and the reading |
| RemoteControl.GetRCData | Unreal/Plugins/AirSim/Source/PawnSimApi.cpp:192-208 | validity is always copied; an invalid reading leaves every other field unchanged; a valid one maps the left stick to throttle (rescaled from -1..1 to 0..1) and yaw, the right stick to roll and negated pitch, copies the z axes and the buttons, and takes as vendor id the part of the product/vendor string before its first '&', or all of it when there is no '&' |
| RemoteControl.IndexOf | Unreal/Plugins/AirSim/Source/PawnSimApi.cpp:208 | the position of the first occurrence of a character, or the string's length when it does not occur |
| RemoteControl.VendorId | Unreal/Plugins/AirSim/Source/PawnSimApi.cpp:208 | the vendor id is a prefix of the product/vendor string holding no '&', followed in the string by '&' unless it is the whole string |
| RemoteControl.VendorIdOfJoined | Unreal/Plugins/AirSim/Source/PawnSimApi.cpp:208 | splitting "vendor&rest" gives back the vendor whenever the vendor holds no '&' |
| RemoteControl.ThrottleInUnitRange | Unreal/Plugins/AirSim/Source/PawnSimApi.cpp:195-196 | a left stick within -1..1 yields a throttle within 0..1 |
| RemoteControl.GetRCDataIdempotent | Unreal/Plugins/AirSim/Source/PawnSimApi.cpp:192-208 | reading the same joystick state twice gives the same RC data as reading it once |
| PawnSimApi.GetImage | Unreal/Plugins/AirSim/Source/PawnSimApi.cpp:170-178 | one request for the named camera and type is issued; the result is the first response's payload, or empty when there is no response |
| RpcClient.GetConnectionState | AirLib/src/api/RpcLibClientBase.cpp:60-70 | connected, disconnected, initial and reset map to their namesakes, every other transport value to Unknown, and each client state has exactly that preimage |
| RpcClient.GetConnectionStateInjective | AirLib/src/api/RpcLibClientBase.cpp:62-66 | distinct named transport states are reported as distinct client states |
| RpcClient.CheckVersions | AirLib/src/api/RpcLibClientBase.cpp:127-136 | exactly one verdict: server outdated iff its version is below the client's minimum; otherwise client outdated iff the client's version is below the server's minimum; otherwise compatible |
| RpcClient.VerdictForThisClient | AirLib/src/api/RpcLibClientBase.cpp:79-86 | with the client's fixed version 1 and required server version 1, the verdict depends only on the server's version and required client version |
| RpcClient.ConfirmConnection | AirLib/src/api/RpcLibClientBase.cpp:101-137 | the wait ends exactly when some observed state reads Connected, at the first such state; every earlier poll is followed by a pause of 1; the version queries and the verdict come only after the connected poll; the verdict is the three-way check on the server's answers and the client constants, and no verdict prevents the normal end |
| RpcClient.NormalizeImagePayload | AirLib/src/api/RpcLibClientBase.cpp:182-190 | a one-byte payload becomes empty, any other payload is returned unchanged, and the result is never one byte long |
| RpcClient.ServerPlaceholder | AirLib/src/api/RpcLibClientBase.cpp:186 | the serving side's workaround for the RPC library's empty-vector bug, as the client assumes it: an empty payload is sent as one filler byte, and any other payload is sent unchanged |
| RpcClient.PlaceholderRoundTrip | AirLib/src/api/RpcLibClientBase.cpp:184-189 | through the placeholder substitution and the normalisation, every payload that is not exactly one byte comes back unchanged, the empty payload included |
| RpcClient.NormalizeIdempotent | AirLib/src/api/RpcLibClientBase.cpp:185-188 | normalising twice is normalising once |
| RpcClient.OneBytePayloadsIndistinguishable | AirLib/src/api/RpcLibClientBase.cpp:185-188 | every one-byte payload, genuine or placeholder, normalises to empty |
| ImagePath.ClientImage | AirLib/src/api/RpcLibClientBase.cpp:182-190 | the image the client returns is never exactly one byte long, since a one-byte payload is taken for the server's placeholder |
| ImagePath.ImageReachesClient | AirLib/src/api/RpcLibClientBase.cpp:182-190 | a camera image that is not exactly one byte long, including the empty image a capture without response yields, reaches the client unchanged through the server's one-byte placeholder and the client's normalisation |
| RpcClient.WaitOnLastTask | AirLib/src/api/RpcLibClientBase.cpp:233-239 | the base client reports the last task finished for every timeout |

## Left out

- The actor moves (`SetActorLocationAndRotation`), the trace lines and the trace flush appear as `EngineEffect` values; the collision particle effect (`displayCollisionEffect`), `possess` and logging are dropped. Camera creation and setup, `getCameraInfo`, `setCameraOrientation`, `getPose`/`toPose`, `getImages` and `plot` are not modelled. They are engine or stream I/O.
- `NedTransform` and `EarthUtils::nedToGeodetic` are not part of this model, so the home geo-point is not computed. The NED conversions are uninterpreted functions; no round-trip or geodetic law is claimed.
- The mesh bounds, ground offset and transformation offset captured at spawn are left out. They are engine geometry that no modelled operation reads.
- `VehicleSimApiBase::reset` and `update` are not part of this model.
- `detectUsbRc` and `setRCForceFeedback` are left out. They poll or drive joystick hardware (`setRCForceFeedback` writes rumble and auto-centre to the device). The joystick reading is an input of `GetRCData`.
- Float arithmetic in `getRCData` is left out. Reals are exact, so rounding of `(left_y + 1) / 2` is not modelled.
- The collision callback arriving on an engine thread is not modelled. Callbacks are sequential events between calls.
- The hit's penetration depth goes through the uninterpreted length conversion `toNedLength`, and its clock reading is an input of the hit event.
- All rpclib transport is left out: the `call(...)` wrappers, serialisation adaptors, the timeout conversion in the client constructor, console output and `sleep_for`. `Sleep` in the log stands for the pause.
- The serving side substitutes a 1-byte placeholder for an empty payload, to work around the RPC library's bug with empty vectors. The server code is not part of this model; `ServerPlaceholder` states only what the client workaround assumes of it.
- ConfirmConnection: the unbounded wait is modelled over a finite sequence of observed states; running out of observations yields `StillWaiting` instead of waiting on.
- The client's `simGetImage` names the camera by an integer id, while the vehicle's `getImage` takes a camera name; how the serving side maps the id to a name is not part of this model, so `ImagePath.ClientImage` takes the camera name directly.
- GetImage: the image type is its enum code (a `nat`), and only the byte payload, width and height of a response are modelled.

=== FILE: collision.dfy ===
/** The collision record the vehicle keeps, and how one engine hit report
    updates it. */
module Collision {
  import opened Common
  import opened Geometry

  /** What the vehicle knows about its most recent collision. */
  datatype CollisionInfo = CollisionInfo(
    hasCollided: bool,
    normal: Vec3,
    impactPoint: Vec3,
    position: Vec3,
    penetrationDepth: real,
    timeStamp: nat,
    objectName: string,
    objectId: int,
    collisionCount: uint32)

  /** A default-constructed record: no collision yet, object id -1. */
  const DefaultCollisionInfo: CollisionInfo :=
    CollisionInfo(false, Origin, Origin, Origin, 0.0, 0, "", -1, 0)

  /** The other actor of a hit. `rootPrimitive` is the custom-depth stencil
      value of its root component, absent when it has no root component or
      the root is not a primitive component. */
  datatype OtherActor = OtherActor(name: string, rootPrimitive: Option<int>)

  /** One hit notification from the engine, in engine-frame coordinates.
      `actorLocation` is where the vehicle stands when the hit is delivered
      and `timeStamp` the injected clock's reading in nanoseconds. */
  datatype Hit = Hit(
    other: Option<OtherActor>,
    impactNormal: Vec3,
    impactPoint: Vec3,
    actorLocation: Vec3,
    penetrationDepth: real,
    timeStamp: nat)

  /** The name reported for the other party of a collision. */
  const NullObjectName: string := "(null)"

  /** The collision callback's update of the record: the hit is recorded,
      converted to NED, and counted once. */
  function RecordHit(ci: CollisionInfo, ned: NedTransform, hit: Hit): (r: CollisionInfo)
    ensures r.hasCollided
    ensures r.collisionCount == IncrementCount(ci.collisionCount)
    ensures ci.collisionCount as int < Uint32Modulus - 1 ==>
              r.collisionCount as int == ci.collisionCount as int + 1
    ensures hit.other.None? ==> r.objectName == NullObjectName
    ensures hit.other.Some? ==> r.objectName == hit.other.value.name
    ensures r.objectId == -1 <==
              (hit.other.None? || hit.other.value.rootPrimitive.None?)
    ensures hit.other.Some? && hit.other.value.rootPrimitive.Some? ==>
              r.objectId == hit.other.value.rootPrimitive.value
    ensures r.normal == Vec3(hit.impactNormal.x, hit.impactNormal.y, -hit.impactNormal.z)
    ensures r.impactPoint == ned.toLocalNed(hit.impactPoint)
    ensures r.position == ned.toLocalNed(hit.actorLocation)
    ensures r.penetrationDepth == ned.toNedLength(hit.penetrationDepth)
    ensures r.timeStamp == hit.timeStamp
  {
    var objectId :=
      match hit.other
      case Some(actor) => (match actor.rootPrimitive case Some(stencil) => stencil case None => -1)
      case None => -1;
    CollisionInfo(
      hasCollided := true,
      normal := Vec3(hit.impactNormal.x, hit.impactNormal.y, -hit.impactNormal.z),
      impactPoint := ned.toLocalNed(hit.impactPoint),
      position := ned.toLocalNed(hit.actorLocation),
      penetrationDepth := ned.toNedLength(hit.penetrationDepth),
      timeStamp := hit.timeStamp,
      objectName := if hit.other.Some? then hit.other.value.name else NullObjectName,
      objectId := objectId,
      collisionCount := IncrementCount(ci.collisionCount))
  }
}

=== FILE: common.dfy ===
/** Small value types shared by the vehicle bridge and the client. */
module Common {

  /** A value that may be absent (a null pointer, a callback that did not fire). */
  datatype Option<+T> = None | Some(value: T)

  /** One byte of an image payload. */
  newtype byte = x: int | 0 <= x < 0x100

  const Uint32Modulus: int := 0x1_0000_0000

  /** C++ `unsigned int`, as used for the collision counter. */
  newtype uint32 = x: int | 0 <= x < 0x1_0000_0000

  /** `++` on an unsigned 32-bit counter: adds one, wrapping from the
      largest value back to zero. */
  function IncrementCount(c: uint32): (r: uint32)
    ensures c as int < Uint32Modulus - 1 ==> r as int == c as int + 1
    ensures c as int == Uint32Modulus - 1 ==> r == 0
    ensures (r as int - c as int - 1) % Uint32Modulus == 0
  {
    ((c as int + 1) % Uint32Modulus) as uint32
  }
}

=== FILE: flip_flop.dfy ===
/** The pass-through flip-flop: behaviour of a run of pose updates against
    an obstacle that reports a hit on every sweeping move. */
module FlipFlop {
  import opened Common
  import opened Geometry
  import opened Collision
  import opened VehicleState

  /** One requested pose and the hit the obstacle reports if the move sweeps. */
  datatype Move = Move(pose: Pose, hit: Hit)

  /** The states after each of a run of pose updates that do not ignore
      collisions, each sweeping move being stopped by the obstacle. The
      per-vehicle switches are never changed by a pose update. */
  function ObstructedRun(s: State, ned: NedTransform, moves: seq<Move>): (r: seq<State>)
    ensures |r| == |moves|
    ensures forall k :: 0 <= k < |r| ==>
              && r[k].collisionsEnabled == s.collisionsEnabled
              && r[k].passthroughEnabled == s.passthroughEnabled
              && r[k].tracingEnabled == s.tracingEnabled
    decreases |moves|
  {
    if |moves| == 0 then []
    else
      var next := SetPose(s, ned, moves[0].pose, false, Some(moves[0].hit)).state;
      [next] + ObstructedRun(next, ned, moves[1..])
  }

  /** With collisions and pass-through on, every move either teleports and
      records no hit, or sweeps and records one; and the first move after a
      state in that shape reverses the previous decision. */
  lemma {:induction false} FlipFlopAlternates(s: State, ned: NedTransform, moves: seq<Move>)
    requires s.collisionsEnabled && s.passthroughEnabled
    ensures var r := ObstructedRun(s, ned, moves);
            && (|r| > 0 ==> r[0].wasLastMoveTeleport == CanTeleportWhileMove(s))
            && (forall k :: 0 <= k < |r| ==>
                  r[k].collisionInfo.hasCollided == !r[k].wasLastMoveTeleport)
            && (forall k :: 1 <= k < |r| ==>
                  r[k].wasLastMoveTeleport == !r[k - 1].wasLastMoveTeleport)
    decreases |moves|
  {
    if |moves| > 0 {
      var next := SetPose(s, ned, moves[0].pose, false, Some(moves[0].hit)).state;
      var rest := ObstructedRun(next, ned, moves[1..]);
      assert ObstructedRun(s, ned, moves) == [next] + rest;
      assert next.collisionsEnabled && next.passthroughEnabled;
      FlipFlopAlternates(next, ned, moves[1..]);
      assert next.collisionInfo.hasCollided == !next.wasLastMoveTeleport;
      if |rest| > 0 {
        assert rest[0].wasLastMoveTeleport == !next.wasLastMoveTeleport;
      }
    }
  }

  /** Once a collision is on record after a sweeping move, the next move
      teleports, and from then on the decisions strictly alternate. */
  lemma FlipFlopAfterCollision(s: State, ned: NedTransform, moves: seq<Move>)
    requires s.collisionsEnabled && s.passthroughEnabled
    requires s.collisionInfo.hasCollided && !s.wasLastMoveTeleport
    ensures var r := ObstructedRun(s, ned, moves);
            forall k :: 0 <= k < |r| ==> r[k].wasLastMoveTeleport == (k % 2 == 0)
  {
    FlipFlopFrom(s, ned, moves, true);
  }

  lemma {:induction false} FlipFlopFrom(s: State, ned: NedTransform, moves: seq<Move>, first: bool)
    requires s.collisionsEnabled && s.passthroughEnabled
    requires CanTeleportWhileMove(s) == first
    ensures var r := ObstructedRun(s, ned, moves);
            forall k :: 0 <= k < |r| ==> r[k].wasLastMoveTeleport == (first <==> k % 2 == 0)
    decreases |moves|
  {
    if |moves| > 0 {
      var next := SetPose(s, ned, moves[0].pose, false, Some(moves[0].hit)).state;
      var rest := ObstructedRun(next, ned, moves[1..]);
      assert ObstructedRun(s, ned, moves) == [next] + rest;
      assert next.wasLastMoveTeleport == first;
      assert CanTeleportWhileMove(next) == !first;
      FlipFlopFrom(next, ned, moves[1..], !first);
      forall k | 1 <= k < |moves|
        ensures ObstructedRun(s, ned, moves)[k].wasLastMoveTeleport == (first <==> k % 2 == 0)
      {
        assert ObstructedRun(s, ned, moves)[k] == ObstructedRun(next, ned, moves[1..])[k - 1];
        assert (k - 1) % 2 == 0 <==> k % 2 != 0;
      }
    }
  }

  /** Without pass-through, a vehicle with collisions on never teleports on
      its own: every move sweeps and records the obstacle's hit. */
  lemma {:induction false} NoPassthroughNeverTeleports(s: State, ned: NedTransform, moves: seq<Move>)
    requires s.collisionsEnabled && !s.passthroughEnabled
    ensures var r := ObstructedRun(s, ned, moves);
            forall k :: 0 <= k < |r| ==>
              !r[k].wasLastMoveTeleport && r[k].collisionInfo.hasCollided
    decreases |moves|
  {
    if |moves| > 0 {
      var next := SetPose(s, ned, moves[0].pose, false, Some(moves[0].hit)).state;
      var rest := ObstructedRun(next, ned, moves[1..]);
      assert ObstructedRun(s, ned, moves) == [next] + rest;
      NoPassthroughNeverTeleports(next, ned, moves[1..]);
      forall k | 1 <= k < |moves|
        ensures !ObstructedRun(s, ned, moves)[k].wasLastMoveTeleport
        ensures ObstructedRun(s, ned, moves)[k].collisionInfo.hasCollided
      {
        assert ObstructedRun(s, ned, moves)[k] == ObstructedRun(next, ned, moves[1..])[k - 1];
      }
    }
  }

  /** With collisions off, every pose update teleports and no hit is ever
      recorded, whatever the engine would report. */
  lemma CollisionsDisabledAlwaysTeleports(s: State, ned: NedTransform, pose: Pose,
                                          ignoreCollision: bool, contact: Option<Hit>)
    requires !s.collisionsEnabled
    ensures var r := SetPose(s, ned, pose, ignoreCollision, contact);
            r.state.wasLastMoveTeleport && !r.state.collisionInfo.hasCollided
            && r.effects[0].teleport
  {
  }
}

=== FILE: geometry.dfy ===
/** Engine-frame and NED-frame geometry. Coordinates are exact reals: float
    rounding and NaN are not modelled. */
module Geometry {

  datatype Vec3 = Vec3(x: real, y: real, z: real)

  datatype Quat = Quat(w: real, x: real, y: real, z: real)

  /** Engine Euler rotation, used for the spawn orientation. */
  datatype Rotator = Rotator(pitch: real, yaw: real, roll: real)

  /** A pose in the NED frame, as it crosses the wire. */
  datatype Pose = Pose(position: Vec3, orientation: Quat)

  const Origin: Vec3 := Vec3(0.0, 0.0, 0.0)

  function Sub(a: Vec3, b: Vec3): Vec3
  {
    Vec3(a.x - b.x, a.y - b.y, a.z - b.z)
  }

  function SizeSquared(v: Vec3): real
  {
    v.x * v.x + v.y * v.y + v.z * v.z
  }

  /** Squared distance a trace must cover before a new segment is drawn. */
  const TraceThresholdSquared: real := 0.25

  /** True when `to` lies far enough from `from` to draw a trace segment. */
  predicate FarEnough(from: Vec3, to: Vec3)
  {
    SizeSquared(Sub(from, to)) > TraceThresholdSquared
  }

  /** The vehicle's conversion between the engine's native frame and NED.
      Its definitions are not part of this model, so the four conversions are
      left uninterpreted and no round-trip law between them is assumed. */
  datatype NedTransform = NedTransform(
    fromLocalNed: Vec3 -> Vec3,
    toLocalNed: Vec3 -> Vec3,
    fromNed: Quat -> Quat,
    toNedLength: real -> real)
}

=== FILE: image_capture.dfy ===
/** Image requests and responses exchanged between client and vehicle. */
module ImageCapture {
  import opened Common

  /** One camera capture request; `imageType` is the image-type enum code. */
  datatype ImageRequest = ImageRequest(cameraName: string, imageType: nat)

  /** One capture result; only the uncompressed byte payload is modelled. */
  datatype ImageResponse = ImageResponse(imageData: seq<byte>, width: nat, height: nat)
}

=== FILE: image_path.dfy ===
/** The single-image path end to end: the vehicle's first-response rule,
    the server's one-byte placeholder for an empty payload, and the client's
    normalisation. */
module ImagePath {
  import opened Common
  import opened ImageCapture
  import Vehicle = PawnSimApi
  import Client = RpcClient

  /** What the client returns for one camera image. */
  function ClientImage(cameraName: string, imageType: nat,
                       capture: seq<ImageRequest> -> seq<ImageResponse>, filler: byte): (bytes: seq<byte>)
    ensures |bytes| != 1
  {
    Client.NormalizeImagePayload(
      Client.ServerPlaceholder(Vehicle.GetImage(cameraName, imageType, capture), filler))
  }

  /** The client receives exactly the vehicle's image bytes unless the image
      is one byte long; in particular a capture with no response reaches the
      client as an empty image. */
  lemma ImageReachesClient(cameraName: string, imageType: nat,
                           capture: seq<ImageRequest> -> seq<ImageResponse>, filler: byte)
    ensures |Vehicle.GetImage(cameraName, imageType, capture)| != 1 ==>
              ClientImage(cameraName, imageType, capture, filler)
              == Vehicle.GetImage(cameraName, imageType, capture)
    ensures |capture([ImageRequest(cameraName, imageType)])| == 0 ==>
              ClientImage(cameraName, imageType, capture, filler) == []
  {
    var image := Vehicle.GetImage(cameraName, imageType, capture);
    if |image| != 1 {
      Client.PlaceholderRoundTrip(image, filler);
    }
  }
}

=== FILE: pawn_sim_api.dfy ===
/** One simulated vehicle as the bridge sees it: its live state, the
    snapshot taken at spawn that reset restores, and the RC data it last
    read. Calls and engine callbacks arrive one at a time as events. */
module PawnSimApi {
  import opened Common
  import opened Geometry
  import opened Collision
  import opened RemoteControl
  import opened ImageCapture
  import opened VehicleState

  /** The per-vehicle switches read from the settings at spawn. */
  datatype VehicleSetting = VehicleSetting(
    enableTrace: bool,
    enableCollisions: bool,
    enableCollisionPassthrough: bool)

  datatype Pawn = Pawn(state: State, initialState: State, rcData: RCData)

  datatype PawnStep = PawnStep(pawn: Pawn, effects: seq<EngineEffect>)

  /** Builds a vehicle standing at `actorLocation`. Both the live state and
      the snapshot start as the default-constructed state `defaults`; the
      snapshot then takes the spawn location, rotation and settings. Its
      teleport flag is the teleport decision evaluated on the live state,
      which at this point is still `defaults`. The snapshot's current
      position, current debug position and debug offset are never set, so
      they stay those of `defaults` (and a reset restores them). */
  function Spawn(defaults: State, actorLocation: Vec3, actorRotation: Rotator,
                 setting: VehicleSetting): (p: Pawn)
    ensures p.state == defaults
    ensures p.rcData == DefaultRCData
    ensures p.initialState == defaults.(
              startLocation := actorLocation,
              startRotation := actorRotation,
              lastPosition := actorLocation,
              lastDebugPosition := actorLocation,
              tracingEnabled := setting.enableTrace,
              collisionsEnabled := setting.enableCollisions,
              passthroughEnabled := setting.enableCollisionPassthrough,
              collisionInfo := DefaultCollisionInfo,
              wasLastMoveTeleport := CanTeleportWhileMove(defaults))
    ensures !p.initialState.collisionInfo.hasCollided
    ensures p.initialState.currentPosition == defaults.currentPosition
  {
    var snapshot := defaults.(
      startLocation := actorLocation,
      lastPosition := actorLocation,
      lastDebugPosition := actorLocation,
      startRotation := actorRotation,
      tracingEnabled := setting.enableTrace,
      collisionsEnabled := setting.enableCollisions,
      passthroughEnabled := setting.enableCollisionPassthrough,
      collisionInfo := DefaultCollisionInfo,
      wasLastMoveTeleport := false);
    var snapshot' := snapshot.(wasLastMoveTeleport := CanTeleportWhileMove(defaults));
    Pawn(defaults, snapshot', DefaultRCData)
  }

  /** The snapshot's teleport flag does not depend on the settings read at
      spawn: two spawns from the same defaults agree on it. */
  lemma SpawnTeleportFlagIgnoresSettings(defaults: State, location: Vec3, rotation: Rotator,
                                         a: VehicleSetting, b: VehicleSetting)
    ensures Spawn(defaults, location, rotation, a).initialState.wasLastMoveTeleport
            == Spawn(defaults, location, rotation, b).initialState.wasLastMoveTeleport
  {
  }

  /** Restores the spawn snapshot and default RC data, and teleports the
      actor back to its start pose. */
  function Reset(p: Pawn): (r: PawnStep)
    ensures r.pawn.state == p.initialState
    ensures r.pawn.initialState == p.initialState
    ensures r.pawn.rcData == DefaultRCData
    ensures r.effects == [MoveActorToStart(p.initialState.startLocation, p.initialState.startRotation)]
  {
    PawnStep(Pawn(p.initialState, p.initialState, DefaultRCData),
             [MoveActorToStart(p.initialState.startLocation, p.initialState.startRotation)])
  }

  /** Reads the joystick into the vehicle's RC data and returns the result. */
  function ReadRCData(p: Pawn, js: JoystickState): (r: Pawn)
    ensures r.state == p.state && r.initialState == p.initialState
    ensures r.rcData.isValid == js.isValid
    ensures !js.isValid ==> r.rcData == p.rcData.(isValid := false)
    ensures js.isValid ==> r.rcData.pitch == -js.rightY && r.rcData.vendorId <= js.pidVid
    ensures r.rcData == GetRCData(p.rcData, js)
  {
    p.(rcData := GetRCData(p.rcData, js))
  }

  /** The bytes of one camera image: the payload of the first response to a
      single request, or nothing when the capture returned no response. */
  function GetImage(cameraName: string, imageType: nat,
                    capture: seq<ImageRequest> -> seq<ImageResponse>): (bytes: seq<byte>)
    ensures |capture([ImageRequest(cameraName, imageType)])| == 0 ==> bytes == []
    ensures |capture([ImageRequest(cameraName, imageType)])| > 0 ==>
              bytes == capture([ImageRequest(cameraName, imageType)])[0].imageData
  {
    var responses := capture([ImageRequest(cameraName, imageType)]);
    if |responses| > 0 then responses[0].imageData else []
  }

  /** Calls into the vehicle, and engine callbacks, in the order they are
      handled. `contact` is the hit the engine reports if the move sweeps. */
  datatype Event =
    | SetPoseCall(pose: Pose, ignoreCollision: bool, contact: Option<Hit>)
    | SetDebugPoseCall(debugPose: Pose, positionHasNan: bool)
    | CollisionCallback(hit: Hit)
    | ResetCall
    | ToggleTraceCall
    | PassthroughToggleCall
    | RCDataRead(joystick: JoystickState)

  /** Handles one event by dispatching it to the operation it names. */
  function Apply(p: Pawn, ned: NedTransform, e: Event): (r: PawnStep)
    ensures r.pawn.initialState == p.initialState
    ensures e.SetPoseCall? ==>
              var step := SetPose(p.state, ned, e.pose, e.ignoreCollision, e.contact);
              r.pawn.state == step.state && r.effects == step.effects
    ensures e.SetDebugPoseCall? ==>
              var step := SetDebugPose(p.state, ned, e.debugPose, e.positionHasNan);
              r.pawn.state == step.state && r.effects == step.effects
    ensures e.CollisionCallback? ==> r.pawn.state == OnCollision(p.state, ned, e.hit) && r.effects == []
    ensures e.ResetCall? ==> r == Reset(p)
    ensures e.ToggleTraceCall? ==>
              r.pawn.state == ToggleTrace(p.state).state && r.effects == ToggleTrace(p.state).effects
    ensures e.PassthroughToggleCall? ==>
              r.pawn.state == AllowPassthroughToggleInput(p.state) && r.effects == []
    ensures e.RCDataRead? ==> r.pawn == ReadRCData(p, e.joystick) && r.effects == []
    ensures !e.ResetCall? && !e.RCDataRead? ==> r.pawn.rcData == p.rcData
    ensures !e.SetPoseCall? && !e.ResetCall? && !e.CollisionCallback? ==>
              r.pawn.state.collisionInfo == p.state.collisionInfo
  {
    match e
    case SetPoseCall(pose, ignoreCollision, contact) =>
      var step := SetPose(p.state, ned, pose, ignoreCollision, contact);
      PawnStep(p.(state := step.state), step.effects)
    case SetDebugPoseCall(debugPose, positionHasNan) =>
      var step := SetDebugPose(p.state, ned, debugPose, positionHasNan);
      PawnStep(p.(state := step.state), step.effects)
    case CollisionCallback(hit) =>
      PawnStep(p.(state := OnCollision(p.state, ned, hit)), [])
    case ResetCall =>
      Reset(p)
    case ToggleTraceCall =>
      var step := ToggleTrace(p.state);
      PawnStep(p.(state := step.state), step.effects)
    case PassthroughToggleCall =>
      PawnStep(p.(state := AllowPassthroughToggleInput(p.state)), [])
    case RCDataRead(js) =>
      PawnStep(ReadRCData(p, js), [])
  }

  /** The vehicle after handling `events` in order. The spawn snapshot is
      never changed by any of them. */
  function Run(p: Pawn, ned: NedTransform, events: seq<Event>): (r: Pawn)
    ensures r.initialState == p.initialState
    decreases |events|
  {
    if |events| == 0 then p
    else Apply(Run(p, ned, events[..|events| - 1]), ned, events[|events| - 1]).pawn
  }

  /** Handling two batches of events in turn is handling their concatenation. */
  lemma {:induction false} RunAppend(p: Pawn, ned: NedTransform, a: seq<Event>, b: seq<Event>)
    ensures Run(p, ned, a + b) == Run(Run(p, ned, a), ned, b)
    decreases |b|
  {
    if |b| == 0 {
      assert a + b == a;
    } else {
      var b' := b[..|b| - 1];
      assert (a + b)[..|a + b| - 1] == a + b';
      assert (a + b)[|a + b| - 1] == b[|b| - 1];
      RunAppend(p, ned, a, b');
    }
  }

  /** After a reset the vehicle is in its spawn snapshot with default RC
      data, whatever happened before. */
  lemma ResetRestoresSnapshot(p: Pawn, ned: NedTransform, history: seq<Event>)
    ensures Run(p, ned, history + [ResetCall]).state == p.initialState
    ensures Run(p, ned, history + [ResetCall]).rcData == DefaultRCData
  {
    RunAppend(p, ned, history, [ResetCall]);
  }

  /** A reset erases history: two histories followed by a reset and the same
      later events leave the vehicle in the same state. */
  lemma ResetForgetsHistory(p: Pawn, ned: NedTransform, a: seq<Event>, b: seq<Event>,
                            later: seq<Event>)
    ensures Run(p, ned, a + [ResetCall] + later) == Run(p, ned, b + [ResetCall] + later)
  {
    RunAppend(p, ned, a + [ResetCall], later);
    RunAppend(p, ned, b + [ResetCall], later);
    ResetRestoresSnapshot(p, ned, a);
    ResetRestoresSnapshot(p, ned, b);
  }

  /** Events that neither move the vehicle nor reset it. */
  predicate KeepsCollisionFlag(e: Event)
  {
    !e.SetPoseCall? && !e.ResetCall?
  }

  /** Number of collision callbacks among `events`. */
  function CallbackCount(events: seq<Event>): nat
  {
    if |events| == 0 then 0
    else CallbackCount(events[..|events| - 1]) + (if events[|events| - 1].CollisionCallback? then 1 else 0)
  }

  /** Between pose updates and resets no collision is lost: each callback is
      counted once (modulo 2^32) and the collision flag, once raised, stays
      raised. */
  lemma {:induction false} CallbacksAreCounted(p: Pawn, ned: NedTransform, events: seq<Event>)
    requires forall i :: 0 <= i < |events| ==> KeepsCollisionFlag(events[i])
    ensures Run(p, ned, events).state.collisionInfo.collisionCount as int
            == (p.state.collisionInfo.collisionCount as int + CallbackCount(events)) % Uint32Modulus
    ensures p.state.collisionInfo.hasCollided ==> Run(p, ned, events).state.collisionInfo.hasCollided
    ensures CallbackCount(events) > 0 ==> Run(p, ned, events).state.collisionInfo.hasCollided
    decreases |events|
  {
    if |events| > 0 {
      var prefix, last := events[..|events| - 1], events[|events| - 1];
      CallbacksAreCounted(p, ned, prefix);
      var q := Run(p, ned, prefix);
      assert Run(p, ned, events) == Apply(q, ned, last).pawn;
      assert CallbackCount(events) == CallbackCount(prefix) + (if last.CollisionCallback? then 1 else 0);
      if last.CollisionCallback? {
        var c := p.state.collisionInfo.collisionCount as int;
        var n := CallbackCount(prefix);
        assert q.state.collisionInfo.collisionCount as int == (c + n) % Uint32Modulus;
        ModIncrement(c + n);
      } else {
        assert KeepsCollisionFlag(last);
        assert Run(p, ned, events).state.collisionInfo == q.state.collisionInfo;
      }
    }
  }

  lemma ModIncrement(k: int)
    ensures ((k % Uint32Modulus) + 1) % Uint32Modulus == (k + 1) % Uint32Modulus
  {
  }

  /** A collision callback is never lost before the next pose update or
      reset: the flag it raises is still up after any other events. */
  lemma CollisionNotLost(p: Pawn, ned: NedTransform, before: seq<Event>, hit: Hit, after: seq<Event>)
    requires forall i :: 0 <= i < |after| ==> KeepsCollisionFlag(after[i])
    ensures Run(p, ned, before + [CollisionCallback(hit)] + after).state.collisionInfo.hasCollided
  {
    RunAppend(p, ned, before + [CollisionCallback(hit)], after);
    RunAppend(p, ned, before, [CollisionCallback(hit)]);
    CallbacksAreCounted(Run(p, ned, before + [CollisionCallback(hit)]), ned, after);
  }
}

=== FILE: remote_control.dfy ===
/** RC input as read from a joystick and exposed as RCData. */
module RemoteControl {

  /** One joystick reading. Axes run from -1 to 1; `pidVid` is the device's
      product/vendor string, such as "VID_0483&PID_5710". */
  datatype JoystickState = JoystickState(
    isValid: bool,
    leftX: real, leftY: real, leftZ: real,
    rightX: real, rightY: real, rightZ: real,
    buttons: nat,
    pidVid: string)

  /** The RC values handed to the vehicle's controller. */
  datatype RCData = RCData(
    isValid: bool,
    isInitialized: bool,
    throttle: real, yaw: real, roll: real, pitch: real,
    leftZ: real, rightZ: real,
    switches: nat,
    vendorId: string)

  /** A default-constructed RCData. */
  const DefaultRCData: RCData := RCData(false, false, 0.0, 0.0, 0.0, 0.0, 0.0, 0.0, 0, "")

  /** Position of the first `c` in `s`, or `|s|` when there is none. */
  function IndexOf(s: string, c: char): (i: nat)
    ensures i <= |s|
    ensures forall j :: 0 <= j < i ==> s[j] != c
    ensures i < |s| ==> s[i] == c
    ensures c !in s <==> i == |s|
  {
    if |s| == 0 then 0
    else if s[0] == c then 0
    else 1 + IndexOf(s[1..], c)
  }

  /** The vendor part of a product/vendor string: everything before the
      first '&', or the whole string when it has none. */
  function VendorId(pidVid: string): (v: string)
    ensures v <= pidVid
    ensures '&' !in v
    ensures |v| < |pidVid| ==> pidVid[|v|] == '&'
    ensures '&' !in pidVid ==> v == pidVid
  {
    pidVid[..IndexOf(pidVid, '&')]
  }

  /** Splitting a joined "vendor&rest" string gives the vendor back. */
  lemma VendorIdOfJoined(vendor: string, rest: string)
    requires '&' !in vendor
    ensures VendorId(vendor + "&" + rest) == vendor
  {
    var s := vendor + "&" + rest;
    assert s[|vendor|] == '&';
    assert s[..|vendor|] == vendor;
  }

  /** Refreshes the RC data from a joystick reading. Validity is always
      copied; the controls are only refreshed from a valid reading, so an
      invalid reading leaves the previous values in place. */
  function GetRCData(rc: RCData, js: JoystickState): (r: RCData)
    ensures r.isValid == js.isValid
    ensures r.isInitialized == rc.isInitialized
    ensures !js.isValid ==> r == rc.(isValid := false)
    ensures js.isValid ==>
              && r.throttle == (js.leftY + 1.0) / 2.0
              && r.yaw == js.leftX
              && r.roll == js.rightX
              && r.pitch == -js.rightY
              && r.leftZ == js.leftZ
              && r.rightZ == js.rightZ
              && r.switches == js.buttons
    ensures js.isValid ==> r.vendorId <= js.pidVid && '&' !in r.vendorId
    ensures js.isValid && '&' in js.pidVid ==> js.pidVid[|r.vendorId|] == '&'
    ensures js.isValid && '&' !in js.pidVid ==> r.vendorId == js.pidVid
  {
    var rc1 := rc.(isValid := js.isValid);
    if rc1.isValid then
      rc1.(throttle := (js.leftY + 1.0) / 2.0,
           yaw := js.leftX,
           roll := js.rightX,
           pitch := -js.rightY,
           leftZ := js.leftZ,
           rightZ := js.rightZ,
           switches := js.buttons,
           vendorId := VendorId(js.pidVid))
    else
      rc1
  }

  /** A stick inside its -1..1 range yields a throttle inside 0..1. */
  lemma ThrottleInUnitRange(rc: RCData, js: JoystickState)
    requires js.isValid && -1.0 <= js.leftY <= 1.0
    ensures 0.0 <= GetRCData(rc, js).throttle <= 1.0
  {
  }

  /** Reading the same joystick state twice gives the same RC data. */
  lemma GetRCDataIdempotent(rc: RCData, js: JoystickState)
    ensures GetRCData(GetRCData(rc, js), js) == GetRCData(rc, js)
  {
  }
}

=== FILE: rpc_client.dfy ===
/** Decisions the RPC client makes on its own, apart from the transport:
    the connection-state mapping, the connection wait and advisory version
    handshake, the image-payload workaround and the base task wait. */
module RpcClient {
  import opened Common

  /** The transport library's connection state. Its enumeration has four
      named values; `RpcOther` stands for any other value it might hold. */
  datatype RpcState = RpcInitial | RpcConnected | RpcDisconnected | RpcReset | RpcOther(code: int)

  /** The connection state the client reports. */
  datatype ConnectionState = Initial | Connected | Disconnected | Reset | Unknown

  /** Maps the transport state onto the client's states; each named state
      maps to its namesake and anything else to `Unknown`. */
  function GetConnectionState(st: RpcState): (r: ConnectionState)
    ensures r == Connected <==> st == RpcConnected
    ensures r == Disconnected <==> st == RpcDisconnected
    ensures r == Initial <==> st == RpcInitial
    ensures r == Reset <==> st == RpcReset
    ensures r == Unknown <==> st.RpcOther?
  {
    match st
    case RpcConnected => Connected
    case RpcDisconnected => Disconnected
    case RpcInitial => Initial
    case RpcReset => Reset
    case RpcOther(_) => Unknown
  }

  /** Distinct named transport states are reported as distinct states. */
  lemma GetConnectionStateInjective(a: RpcState, b: RpcState)
    requires !a.RpcOther? && !b.RpcOther?
    requires GetConnectionState(a) == GetConnectionState(b)
    ensures a == b
  {
  }

  /** The client's own protocol version. */
  const ClientVersion: int := 1

  /** The oldest server version this client accepts. */
  const MinRequiredServerVersion: int := 1

  datatype VersionVerdict = ServerOutdated | ClientOutdated | Compatible

  /** The handshake's three-way verdict. An outdated server is reported in
      preference to an outdated client. */
  function CheckVersions(serverVersion: int, clientVersion: int,
                         minServerVersion: int, minClientVersion: int): (v: VersionVerdict)
    ensures v == ServerOutdated <==> serverVersion < minServerVersion
    ensures v == ClientOutdated <==>
              serverVersion >= minServerVersion && clientVersion < minClientVersion
    ensures v == Compatible <==>
              serverVersion >= minServerVersion && clientVersion >= minClientVersion
  {
    if serverVersion < minServerVersion then ServerOutdated
    else if clientVersion < minClientVersion then ClientOutdated
    else Compatible
  }

  /** With this client's constants the verdict depends only on what the
      server reports: its version and the client version it requires. */
  lemma VerdictForThisClient(serverVersion: int, minClientVersion: int)
    ensures var v := CheckVersions(serverVersion, ClientVersion, MinRequiredServerVersion, minClientVersion);
            && (v == ServerOutdated <==> serverVersion < 1)
            && (v == ClientOutdated <==> serverVersion >= 1 && minClientVersion > 1)
            && (v == Compatible <==> serverVersion >= 1 && minClientVersion <= 1)
  {
  }

  /** What the server answers to the two version queries. */
  datatype ServerVersions = ServerVersions(serverVersion: int, minRequiredClientVersion: int)

  /** Observable steps of the connection wait and handshake. */
  datatype ClientEvent =
    | Poll(state: ConnectionState)
    | Sleep(delta: nat)
    | QueryServerVersion
    | QueryMinRequiredClientVersion
    | Report(verdict: VersionVerdict)

  /** Pause between two polls of the connection state. */
  const PauseTime: nat := 1

  /** How the wait ended: still waiting once the observations ran out, or
      connected after `waits` unsuccessful polls with the handshake verdict. */
  datatype Handshake = StillWaiting | Established(waits: nat, verdict: VersionVerdict)

  predicate IsVersionQuery(e: ClientEvent)
  {
    e.QueryServerVersion? || e.QueryMinRequiredClientVersion? || e.Report?
  }

  /** Polls `observed` (the transport's successive states) until one reads
      as connected, pausing after every other poll, then asks the server for
      its versions and reports the verdict. A mismatch is only reported; the
      wait ends normally whatever the verdict. */
  method ConfirmConnection(observed: seq<RpcState>, server: ServerVersions)
    returns (outcome: Handshake, log: seq<ClientEvent>)
    ensures outcome.Established? <==>
              exists j :: 0 <= j < |observed| && GetConnectionState(observed[j]) == Connected
    ensures outcome.Established? ==>
              && outcome.waits < |observed|
              && GetConnectionState(observed[outcome.waits]) == Connected
              && (forall j :: 0 <= j < outcome.waits ==> GetConnectionState(observed[j]) != Connected)
              && outcome.verdict == CheckVersions(server.serverVersion, ClientVersion,
                                                  MinRequiredServerVersion, server.minRequiredClientVersion)
              && |log| == 2 * outcome.waits + 4
              && log[2 * outcome.waits] == Poll(Connected)
              && log[2 * outcome.waits + 1..] ==
                   [QueryServerVersion, QueryMinRequiredClientVersion, Report(outcome.verdict)]
    ensures outcome.StillWaiting? ==> |log| == 2 * |observed|
    ensures forall k :: 0 <= k < |log| && IsVersionQuery(log[k]) ==>
              outcome.Established? && k > 2 * outcome.waits
    ensures forall k :: 0 <= k < |log| && log[k].Poll? && log[k].state == Connected ==>
              outcome.Established? && k == 2 * outcome.waits
    ensures forall k :: (0 <= k < |log| && k % 2 == 0 && k / 2 < |observed|
                         && (outcome.StillWaiting? || k <= 2 * outcome.waits)) ==>
              log[k] == Poll(GetConnectionState(observed[k / 2]))
    ensures forall k :: (0 <= k < |log| && k % 2 == 1
                         && (outcome.StillWaiting? || k < 2 * outcome.waits)) ==>
              log[k] == Sleep(PauseTime)
  {
    log := [];
    var i := 0;
    while i < |observed| && GetConnectionState(observed[i]) != Connected
      invariant 0 <= i <= |observed|
      invariant forall j :: 0 <= j < i ==> GetConnectionState(observed[j]) != Connected
      invariant |log| == 2 * i
      invariant forall k :: 0 <= k < |log| && k % 2 == 0 ==>
                  log[k] == Poll(GetConnectionState(observed[k / 2]))
      invariant forall k :: 0 <= k < |log| && k % 2 == 1 ==> log[k] == Sleep(PauseTime)
      decreases |observed| - i
    {
      log := log + [Poll(GetConnectionState(observed[i])), Sleep(PauseTime)];
      i := i + 1;
    }
    if i == |observed| {
      outcome := StillWaiting;
    } else {
      log := log + [Poll(Connected)];
      var serverVersion := server.serverVersion;
      log := log + [QueryServerVersion];
      var clientVersion := ClientVersion;
      var minServerVersion := MinRequiredServerVersion;
      var minClientVersion := server.minRequiredClientVersion;
      log := log + [QueryMinRequiredClientVersion];
      var verdict := CheckVersions(serverVersion, clientVersion, minServerVersion, minClientVersion);
      log := log + [Report(verdict)];
      outcome := Established(i, verdict);
    }
  }

  /** The client's normalisation of a decoded image payload: the RPC library
      mis-serialises an empty byte vector, so the serving side sends a
      single byte in its place, and the client reads a single byte as empty.
      This also empties a genuine one-byte payload. */
  function NormalizeImagePayload(payload: seq<byte>): (r: seq<byte>)
    ensures |payload| == 1 ==> r == []
    ensures |payload| != 1 ==> r == payload
    ensures |r| != 1
  {
    if |payload| == 1 then [] else payload
  }

  /** The serving side's substitution of a one-byte placeholder for an empty
      payload, which works around the RPC library's empty-vector bug; this
      is what the client's normalisation above assumes of the server. */
  function ServerPlaceholder(payload: seq<byte>, filler: byte): (wire: seq<byte>)
    ensures |wire| > 0
    ensures payload == [] ==> wire == [filler]
    ensures payload != [] ==> wire == payload
  {
    if |payload| == 0 then [filler] else payload
  }

  /** Sending a payload through the placeholder substitution and normalising
      it gives it back, for every payload that is not exactly one byte. */
  lemma PlaceholderRoundTrip(payload: seq<byte>, filler: byte)
    requires |payload| != 1
    ensures NormalizeImagePayload(ServerPlaceholder(payload, filler)) == payload
  {
  }

  /** Normalising twice is normalising once. */
  lemma NormalizeIdempotent(payload: seq<byte>)
    ensures NormalizeImagePayload(NormalizeImagePayload(payload)) == NormalizeImagePayload(payload)
  {
  }

  /** Every one-byte payload is lost: all of them normalise to the empty
      payload, so the normalisation is not injective. */
  lemma OneBytePayloadsIndistinguishable(a: byte, b: byte)
    ensures NormalizeImagePayload([a]) == NormalizeImagePayload([b]) == []
  {
  }

  /** The base client runs no asynchronous tasks, so waiting on the last one
      reports completion at once, whatever the timeout. */
  function WaitOnLastTask(timeoutSeconds: real): (finished: bool)
    ensures finished
  {
    true
  }
}

=== FILE: vehicle_state.dfy ===
/** The vehicle's pose/collision state record and its transitions: the pose
    update with its teleport-or-physics decision, the collision callback, the
    debug-pose overlay and the two toggles. */
module VehicleState {
  import opened Common
  import opened Geometry
  import opened Collision

  /** The mutable state of one vehicle. Positions are in the engine frame. */
  datatype State = State(
    startLocation: Vec3,
    startRotation: Rotator,
    lastPosition: Vec3,
    lastDebugPosition: Vec3,
    currentPosition: Vec3,
    currentDebugPosition: Vec3,
    debugPositionOffset: Vec3,
    tracingEnabled: bool,
    collisionsEnabled: bool,
    passthroughEnabled: bool,
    collisionInfo: CollisionInfo,
    wasLastMoveTeleport: bool)

  datatype TraceKind = VehicleTrace | DebugTrace

  /** What a transition asks of the engine. A `MoveActor` with `teleport`
      repositions without sweeping for collisions; without it the move sweeps
      and the engine reports any blocking hit. */
  datatype EngineEffect =
    | MoveActor(position: Vec3, orientation: Quat, teleport: bool)
    | MoveActorToStart(location: Vec3, rotation: Rotator)
    | DrawTraceLine(kind: TraceKind, from: Vec3, to: Vec3)
    | FlushTraceLines

  datatype Step = Step(state: State, effects: seq<EngineEffect>)

  /** Whether the next pose update may teleport. Teleporting is allowed when
      collisions are off, or when a collision is on record, the previous move
      swept, and pass-through is on. */
  function CanTeleportWhileMove(s: State): (allowed: bool)
    ensures !s.collisionsEnabled ==> allowed
    ensures s.collisionsEnabled && !s.passthroughEnabled ==> !allowed
    ensures s.collisionsEnabled && s.wasLastMoveTeleport ==> !allowed
    ensures s.collisionsEnabled && !s.collisionInfo.hasCollided ==> !allowed
    ensures (s.collisionsEnabled && s.passthroughEnabled
             && s.collisionInfo.hasCollided && !s.wasLastMoveTeleport) ==> allowed
  {
    !s.collisionsEnabled
    || (s.collisionInfo.hasCollided && !s.wasLastMoveTeleport && s.passthroughEnabled)
  }

  /** The engine's hit notification: records the collision and changes
      nothing but the collision record. */
  function OnCollision(s: State, ned: NedTransform, hit: Hit): (r: State)
    ensures r.collisionInfo == RecordHit(s.collisionInfo, ned, hit)
    ensures r.collisionInfo.hasCollided
    ensures r.collisionInfo.collisionCount == IncrementCount(s.collisionInfo.collisionCount)
    ensures r.collisionInfo.timeStamp == hit.timeStamp
    ensures hit.other.None? ==> r.collisionInfo.objectName == NullObjectName
    ensures r == s.(collisionInfo := r.collisionInfo)
  {
    s.(collisionInfo := RecordHit(s.collisionInfo, ned, hit))
  }

  /** Moves the vehicle to `pose` (NED). The collision flag is cleared before
      the move, so afterwards it reports only a hit delivered during this
      move (`contact`, which the engine delivers only to a sweeping move).
      The decision whether to teleport is remembered for the next call. The
      trace point follows the vehicle once it is far enough away, or always
      while tracing is off. */
  function SetPose(s: State, ned: NedTransform, pose: Pose, ignoreCollision: bool,
                   contact: Option<Hit>): (r: Step)
    ensures r.state.currentPosition == ned.fromLocalNed(pose.position)
    ensures r.state.wasLastMoveTeleport == (ignoreCollision || CanTeleportWhileMove(s))
    ensures ignoreCollision ==> r.state.wasLastMoveTeleport
    ensures r.state.collisionInfo.hasCollided <==> !r.state.wasLastMoveTeleport && contact.Some?
    ensures r.state.collisionInfo.hasCollided ==>
              r.state.collisionInfo == RecordHit(s.collisionInfo, ned, contact.value)
    ensures !r.state.collisionInfo.hasCollided ==>
              r.state.collisionInfo == s.collisionInfo.(hasCollided := false)
    ensures s.tracingEnabled && FarEnough(s.lastPosition, r.state.currentPosition) ==>
              r.state.lastPosition == r.state.currentPosition
    ensures s.tracingEnabled && !FarEnough(s.lastPosition, r.state.currentPosition) ==>
              r.state.lastPosition == s.lastPosition
    ensures !s.tracingEnabled ==> r.state.lastPosition == r.state.currentPosition
    ensures !FarEnough(r.state.lastPosition, r.state.currentPosition)
    ensures r.state == s.(currentPosition := r.state.currentPosition,
                          lastPosition := r.state.lastPosition,
                          collisionInfo := r.state.collisionInfo,
                          wasLastMoveTeleport := r.state.wasLastMoveTeleport)
    ensures 1 <= |r.effects| <= 2
    ensures r.effects[0] == MoveActor(r.state.currentPosition, ned.fromNed(pose.orientation),
                                      r.state.wasLastMoveTeleport)
    ensures |r.effects| == 2 <==> s.tracingEnabled && FarEnough(s.lastPosition, r.state.currentPosition)
    ensures |r.effects| == 2 ==>
              r.effects[1] == DrawTraceLine(VehicleTrace, s.lastPosition, r.state.currentPosition)
  {
    var target := ned.fromLocalNed(pose.position);
    var orientation := ned.fromNed(pose.orientation);
    var teleport := ignoreCollision || CanTeleportWhileMove(s);
    var cleared := s.(currentPosition := target,
                      collisionInfo := s.collisionInfo.(hasCollided := false),
                      wasLastMoveTeleport := teleport);
    var moved := if !teleport && contact.Some? then OnCollision(cleared, ned, contact.value) else cleared;
    var move := MoveActor(target, orientation, teleport);
    if moved.tracingEnabled && FarEnough(moved.lastPosition, target) then
      Step(moved.(lastPosition := target), [move, DrawTraceLine(VehicleTrace, moved.lastPosition, target)])
    else if !moved.tracingEnabled then
      Step(moved.(lastPosition := target), [move])
    else
      Step(moved, [move])
  }

  /** Where the debug overlay draws a debug position: shifted by the offset
      captured when tracing was last switched on. */
  function OverlayPoint(s: State, debugPosition: Vec3): Vec3
  {
    Sub(debugPosition, s.debugPositionOffset)
  }

  /** Records a reference ("debug") pose and advances the debug trace like
      the vehicle trace. A position holding a NaN (`positionHasNan`) is
      stored but never traced. Only the two debug positions change. */
  function SetDebugPose(s: State, ned: NedTransform, debugPose: Pose, positionHasNan: bool): (r: Step)
    ensures r.state.currentDebugPosition == ned.fromLocalNed(debugPose.position)
    ensures r.state == s.(currentDebugPosition := r.state.currentDebugPosition,
                          lastDebugPosition := r.state.lastDebugPosition)
    ensures !s.tracingEnabled ==>
              r.state.lastDebugPosition == OverlayPoint(s, r.state.currentDebugPosition)
    ensures s.tracingEnabled && positionHasNan ==> r.state.lastDebugPosition == s.lastDebugPosition
    ensures s.tracingEnabled && !positionHasNan
              && FarEnough(s.lastDebugPosition, OverlayPoint(s, r.state.currentDebugPosition)) ==>
              r.state.lastDebugPosition == OverlayPoint(s, r.state.currentDebugPosition)
    ensures s.tracingEnabled && !positionHasNan
              && !FarEnough(s.lastDebugPosition, OverlayPoint(s, r.state.currentDebugPosition)) ==>
              r.state.lastDebugPosition == s.lastDebugPosition
    ensures s.tracingEnabled && !positionHasNan ==>
              !FarEnough(r.state.lastDebugPosition, OverlayPoint(s, r.state.currentDebugPosition))
    ensures r.state.lastDebugPosition == s.lastDebugPosition
              || r.state.lastDebugPosition == OverlayPoint(s, r.state.currentDebugPosition)
    ensures |r.effects| <= 1
    ensures |r.effects| == 1 <==>
              s.tracingEnabled && !positionHasNan && r.state.lastDebugPosition != s.lastDebugPosition
    ensures |r.effects| == 1 ==>
              r.effects[0] == DrawTraceLine(DebugTrace, s.lastDebugPosition, r.state.lastDebugPosition)
  {
    var current := ned.fromLocalNed(debugPose.position);
    var s1 := s.(currentDebugPosition := current);
    if s1.tracingEnabled && !positionHasNan then
      var overlay := OverlayPoint(s1, current);
      if FarEnough(s1.lastDebugPosition, overlay) then
        Step(s1.(lastDebugPosition := overlay), [DrawTraceLine(DebugTrace, s1.lastDebugPosition, overlay)])
      else
        Step(s1, [])
    else if !s1.tracingEnabled then
      Step(s1.(lastDebugPosition := OverlayPoint(s1, current)), [])
    else
      Step(s1, [])
  }

  /** Switches tracing. Switching off clears the drawn traces; switching on
      re-anchors the debug overlay on the vehicle's current position and
      restarts the debug trace from the vehicle's trace point. */
  function ToggleTrace(s: State): (r: Step)
    ensures r.state.tracingEnabled == !s.tracingEnabled
    ensures !r.state.tracingEnabled ==>
              r.state == s.(tracingEnabled := false) && r.effects == [FlushTraceLines]
    ensures r.state.tracingEnabled ==>
              && r.effects == []
              && r.state.lastDebugPosition == s.lastPosition
              && OverlayPoint(r.state, r.state.currentDebugPosition) == r.state.currentPosition
              && r.state == s.(tracingEnabled := true,
                               debugPositionOffset := r.state.debugPositionOffset,
                               lastDebugPosition := r.state.lastDebugPosition)
  {
    var s1 := s.(tracingEnabled := !s.tracingEnabled);
    if !s1.tracingEnabled then
      Step(s1, [FlushTraceLines])
    else
      Step(s1.(debugPositionOffset := Sub(s1.currentDebugPosition, s1.currentPosition),
               lastDebugPosition := s1.lastPosition), [])
  }

  /** Switching tracing on and then reporting the debug position already on
      record overlays it on the vehicle's current position: the debug trace
      advances to that position exactly when it is more than 0.5 away from
      the vehicle's trace point, and otherwise starts at the trace point. */
  lemma DebugTraceStartsAtVehicleTrace(s: State, ned: NedTransform, debugPose: Pose)
    requires !s.tracingEnabled
    requires ned.fromLocalNed(debugPose.position) == s.currentDebugPosition
    ensures var on := ToggleTrace(s).state;
            var r := SetDebugPose(on, ned, debugPose, false);
            && OverlayPoint(on, r.state.currentDebugPosition) == s.currentPosition
            && (FarEnough(s.lastPosition, s.currentPosition) ==>
                  r.state.lastDebugPosition == s.currentPosition
                  && r.effects == [DrawTraceLine(DebugTrace, s.lastPosition, s.currentPosition)])
            && (!FarEnough(s.lastPosition, s.currentPosition) ==>
                  r.state.lastDebugPosition == s.lastPosition && r.effects == [])
  {
    var on := ToggleTrace(s).state;
    assert on.lastDebugPosition == s.lastPosition;
    assert OverlayPoint(on, s.currentDebugPosition) == s.currentPosition;
  }

  /** Switches pass-through on collision; nothing else changes. */
  function AllowPassthroughToggleInput(s: State): (r: State)
    ensures r.passthroughEnabled == !s.passthroughEnabled
    ensures r == s.(passthroughEnabled := r.passthroughEnabled)
  {
    s.(passthroughEnabled := !s.passthroughEnabled)
  }

  /** Toggling pass-through twice restores the state. */
  lemma PassthroughToggleInvolution(s: State)
    ensures AllowPassthroughToggleInput(AllowPassthroughToggleInput(s)) == s
  {
  }

  /** Toggling tracing twice restores the flag and leaves the pose, the
      collision record and the vehicle trace point as they were. */
  lemma ToggleTraceTwice(s: State)
    ensures ToggleTrace(ToggleTrace(s).state).state.tracingEnabled == s.tracingEnabled
    ensures ToggleTrace(ToggleTrace(s).state).state
              == s.(debugPositionOffset := ToggleTrace(ToggleTrace(s).state).state.debugPositionOffset,
                    lastDebugPosition := ToggleTrace(ToggleTrace(s).state).state.lastDebugPosition)
  {
  }
}
